=== FILE: README.md ===
# rohie I/O scheduler — a Dafny model of its dispatch engine

The rohie elevator is a deadline-tagged block-layer scheduler. It keeps
four request lists, indexed by class (synchronous or asynchronous) and by
direction (read or write). Every request gets a deadline when it is
added. Each dispatch call hands one request to the device queue, picked
in one of two ways:

- a periodic expired scan, which looks only at the list heads, in the
  order async write, async read, sync write, sync read;
- a normal choice: synchronous before asynchronous, and the preferred
  direction before the other. WRITE is preferred once the `starved`
  counter has climbed past `writes_starved`.

Merging two requests lets the survivor inherit the earlier deadline.
Former/latter return a request's neighbours on its own list.

This project models these operations of `block/rohie-iosched.c` as pure
Dafny functions over an immutable state, and proves what they promise,
singly and over runs of calls:

- `types.dfy` (`Types`): C integer widths with explicit wrap-around and
  unsigned conversion; the class and direction tags; the request handle.
- `seqs.dfy` (`Seqs`): a doubly linked list becomes a sequence. It
  provides occurrence counts, unlinking, substitution in place and
  position lookup.
- `scheduler.dfy` (`Rohie`): the state `struct rohie_data`, with the four
  lists as sequences (index 0 is the list head) and `fifo_time` as a map
  from request to deadline. It models add, the expired probe and scan,
  the normal choice, dispatch, merge, former/latter, init and the exit
  check.
- `invariants.dfy` (`RohieInvariants`): the bookkeeping invariant. Every
  queued request is stamped, linked at most once, and on the list its
  tags select. Add, dispatch and merge preserve it. Link-count lemmas say
  exactly which request each operation links or unlinks.
- `properties.dfy` (`RohieProperties`): runs of dispatch calls. It proves
  conservation and draining, the precedence of the expired scan, a bound
  on when an expired head is served, a bound on write starvation, the
  inverse relation of former and latter, and newest-first order within a
  list.
- `findings.dfy` (`RohieFindings`): two places where the code departs
  from what its own names and constants intend. Each is modelled both as
  written and as intended.

Where the code departs from what its names and declared constants
suggest, the model follows the code:

- **Lists are LIFO.** `list_add` links at the head, and the head is what
  is probed and dispatched. So within one list the newest request leaves
  first, even though the lists are called `fifo_list`.
- **`starved` and `writes_starved` are never assigned** when the
  scheduler is set up, and the allocation is not zeroed. Their initial
  values are therefore parameters of `Init`, not the declared defaults.

Both points are also listed under Findings.

C integer semantics are written out:

- `batched` and `starved` are `unsigned int`. They wrap to zero past
  2^32 - 1 (`Inc`).
- `fifo_batch` and `writes_starved` are `int`. When compared with the
  unsigned counters, they are converted to unsigned (`ToUnsigned`). So a
  `writes_starved` of -1 makes the comparison always false, and any other
  negative value makes WRITE preferred only once `starved` exceeds 2^32
  plus that value (at least 2^31).

The clock (`jiffies`) and `HZ` are parameters (`now`, `hz`).

## Model

| member | source | states |
|---|---|---|
| Types.ToUnsigned | block/rohie-iosched.c:140 | the unsigned value an `int` takes in a mixed comparison: equal modulo 2^32, unchanged when non-negative, at least 2^31 when negative |
| Types.Inc | block/rohie-iosched.c:126 | `unsigned int` increment: the successor modulo 2^32, the plain successor below the maximum |
| Rohie.Init | block/rohie-iosched.c:199-209 | after set-up all four lists are empty (size 0); `batched` is 0 and `fifo_batch` 1; sync expiry is one `hz` and async two; the unassigned counters keep whatever they held; the invariant holds |
| Rohie.CanExit | block/rohie-iosched.c:221-224 | none of the exit checks fires exactly when all four lists are empty, i.e. when no request is linked |
| Rohie.EmptyQueues | block/rohie-iosched.c:221-224 | "every list empty" is the same as "the four lists are empty" and as "size 0" |
| Rohie.Add | block/rohie-iosched.c:56-64 | the deadline of `rq` becomes now plus its list's expiry; `rq` goes to the front of its own list; no other list, counter or tunable changes; stamping is preserved |
| Rohie.ExpiredHead | block/rohie-iosched.c:66-80 | returns a request exactly when the list is non-empty and its head is strictly past its deadline, and then it is that head |
| Rohie.ChooseExpired | block/rohie-iosched.c:82-101 | picks a list whose head has expired and no list earlier in the order AW, AR, SW, SR has one; none exactly when no head has expired |
| Rohie.ChooseNormal | block/rohie-iosched.c:103-119 | picks a non-empty list with every list before it empty, in the order sync-preferred, sync-other, async-preferred, async-other; none exactly when all four lists are empty |
| Rohie.PreferredDir | block/rohie-iosched.c:138-147 | WRITE exactly when `starved` exceeds `writes_starved` read as unsigned; always READ when `writes_starved` is -1; for another negative value, WRITE exactly when `starved` exceeds 2^32 plus it |
| Rohie.Decide | block/rohie-iosched.c:140-152 | the two-phase choice finds a list exactly when some list is non-empty, and the list it finds is non-empty |
| Rohie.DispatchHead | block/rohie-iosched.c:121-132 | unlinks exactly the head of the chosen list; the other lists, the deadlines and the tunables are unchanged; nothing is added anywhere; `batched` goes up by one (mod 2^32); `starved` is zeroed by a write and goes up by one for a read |
| Rohie.Dispatch | block/rohie-iosched.c:134-157 | returns nothing exactly when all lists are empty, and then leaves the lists alone. Otherwise it hands on the head of the decided list and removes it from that list alone. `batched` is reset when due, even on an empty call, then incremented on success. `starved` is zeroed by a write and incremented by a read |
| Rohie.MergedDeadline | block/rohie-iosched.c:46-50 | when both requests are linked, `rq` ends with the smaller of the two deadlines; otherwise no deadline changes |
| Rohie.Merge | block/rohie-iosched.c:43-54 | `next` ends up on no list; each list loses `next` and, when `next` expires strictly earlier, `rq` is substituted where `next` stood; the counters are unchanged |
| Rohie.Former | block/rohie-iosched.c:159-169 | none exactly when `rq` is the head of its own list, else the request one position nearer the head |
| Rohie.Latter | block/rohie-iosched.c:171-181 | none exactly when `rq` is the tail of its own list, else the request one position nearer the tail |
| Rohie.QueueDistinct | block/rohie-iosched.c:63 | in a state where nothing is linked twice, each list is duplicate-free |
| RohieInvariants.AddLinks | block/rohie-iosched.c:63 | add links `rq` once more and no other request; the total size grows by one |
| RohieInvariants.DispatchLinks | block/rohie-iosched.c:123 | dispatch unlinks exactly the request it hands on, once, and no other request |
| RohieInvariants.DispatchSize | block/rohie-iosched.c:134-157 | the total size drops by one exactly when a request is handed on, and that request was linked |
| RohieInvariants.MergeLinks | block/rohie-iosched.c:43-54 | after a merge `next` is linked nowhere; a moved `rq` is linked as often as `next` was; every other request is linked as before |
| RohieInvariants.AddPreservesWf | block/rohie-iosched.c:56-64 | adding an unlinked request keeps every queued request stamped, linked once and on its own list |
| RohieInvariants.DispatchPreservesWf | block/rohie-iosched.c:121-157 | dispatch keeps the invariant |
| RohieInvariants.MergeKeepsPartition | block/rohie-iosched.c:48-53 | a merge links no request twice |
| RohieInvariants.MergeKeepsStamped | block/rohie-iosched.c:48-53 | after a merge every linked request still has a deadline |
| RohieInvariants.MergeKeepsTagged | block/rohie-iosched.c:48-53 | a merge leaves every request on its own list whenever a moved `rq` belongs to `next`'s list; a merge that does not move `rq` needs nothing of the two classes |
| RohieInvariants.MergePreservesWf | block/rohie-iosched.c:43-54 | a merge keeps the invariant whenever a moved `rq` belongs to `next`'s list; a merge that does not move `rq` keeps it for any two requests |
| RohieInvariants.MergeMember | block/rohie-iosched.c:48-53 | a list holds after a merge only what it held before other than `next`, or `rq` where `next` was |
| RohieInvariants.MergeMovesNothingElse | block/rohie-iosched.c:43-54 | apart from `rq` and `next`, each list keeps the same requests in the same order |
| RohieInvariants.MergeTakesPlace | block/rohie-iosched.c:47-49 | a moved `rq` sits on `next`'s list at the position `next` held once `rq` is unlinked |
| RohieInvariants.MergeLandsOnce | block/rohie-iosched.c:48 | in a well-formed state a moved `rq` is on `next`'s list and on no other |
| RohieInvariants.MergeKeepsPlace | block/rohie-iosched.c:46-47 | when the merge does not move `rq`, `rq` stays on exactly the lists it was on and no deadline changes |
| RohieProperties.Run | block/rohie-iosched.c:134-157 | a run of `n` back-to-back dispatch calls at one clock value, with nothing added or merged in between, keeps every linked request stamped and hands on at most `n` requests |
| RohieProperties.RunConserves | block/rohie-iosched.c:145-156 | a run of `n` calls hands on `min(n, size)` requests, and what was handed on plus what is left is what was there |
| RohieProperties.RunKeepsLinks | block/rohie-iosched.c:123-124 | for every request, the times handed on plus the times still linked equal the times linked at the start |
| RohieProperties.Drain | block/rohie-iosched.c:134-157 | as many calls as there are linked requests leave the scheduler fit to exit; each request is handed on as often as it was linked, so a well-formed state hands each on exactly once |
| RohieProperties.RunPrefix | block/rohie-iosched.c:134-157 | a shorter run hands on a prefix of what a longer run from the same state hands on |
| RohieProperties.ExpiredOverrides | block/rohie-iosched.c:140-145 | when a batch is due, the first expired head in scan order is handed on whatever the normal choice would be, and `batched` ends at 1 |
| RohieProperties.NormalPath | block/rohie-iosched.c:145-154 | without a due batch, or with no expired head, the head of the first non-empty list in normal order is handed on and removed |
| RohieProperties.HeadsDecide | block/rohie-iosched.c:74-116 | the choices depend only on which lists are empty, their heads and the heads' deadlines |
| RohieProperties.ExpiredServed | block/rohie-iosched.c:66-101 | an expired head whose list comes first in scan order among lists that may hold expired requests is handed on within `BatchWait` back-to-back dispatch calls at one clock value with nothing added in between |
| RohieProperties.WriteStep | block/rohie-iosched.c:126-147 | while a sync write waits, `fifo_batch` is not zero, `writes_starved` is not negative and, when a batch is due, `starved` is below 2^32 - 2, each call hands on a write, or a read and leaves these conditions in place with a strictly smaller remaining bound |
| RohieProperties.WritesServed | block/rohie-iosched.c:126-149 | while a sync write waits, `fifo_batch` is not zero, `writes_starved` is not negative and, when a batch is due, `starved` is below 2^32 - 2, some write is handed on within `StarveWait` back-to-back calls |
| RohieProperties.WriteAfterReads | block/rohie-iosched.c:128-147 | once `starved` has passed `writes_starved` (reads sent while no write waited, or a large initial value), with `fifo_batch` not zero, `writes_starved` not negative and `starved` below 2^32 - 2, some write (an expired async write counts) is handed on within two calls while a sync write waits |
| RohieProperties.FormerLatter | block/rohie-iosched.c:159-181 | the latter of `rq`'s former is `rq`, and the former of `rq`'s latter is `rq` |
| RohieProperties.NewestFirst | block/rohie-iosched.c:63 | the next call that picks a request's list after it was added hands on that request and restores the list |
| RohieProperties.TwoReadsLifo | block/rohie-iosched.c:63 | two sync reads added one after the other to a fresh scheduler are handed on in reverse order |
| RohieFindings.AddLifo | block/rohie-iosched.c:63 | as written, of two requests added in turn to one list, the later is the head and the earlier second |
| RohieFindings.AddTail | block/rohie-iosched.c:56-64 | the intended add: stamps as add does and appends `rq` at the tail; no other list changes |
| RohieFindings.AddTailFifo | block/rohie-iosched.c:63 | with tail linking, of two requests added in turn, the earlier stands nearer the head |
| RohieFindings.HeadOldest | block/rohie-iosched.c:74-76 | on a list ordered by deadline, the head has expired exactly when some request on the list has |
| RohieFindings.AddTailKeepsOrdered | block/rohie-iosched.c:62-63 | tail linking keeps a list ordered by deadline when the new deadline is no earlier than those present |
| RohieFindings.BuriedExpiry | block/rohie-iosched.c:74-76 | as written, an expired request under a fresher head is not found by the expired scan |
| RohieFindings.TailExpiryFound | block/rohie-iosched.c:74-76 | with tail linking, the same expired request is the head and the scan finds it |
| RohieFindings.InitIntended | block/rohie-iosched.c:28 | set-up with `starved` zeroed and `writes_starved` at its declared value 1 gives an empty, well-formed state |
| RohieFindings.ReadCall | block/rohie-iosched.c:145-149 | with nothing due and READ preferred, a call hands on the newest sync read |
| RohieFindings.ThirdCall | block/rohie-iosched.c:140-149 | with `starved` 2 and nothing expired, a call hands on the sync write when `writes_starved` is 1, and the sync read when it is -1 |
| RohieFindings.UninitialisedWritesStarved | block/rohie-iosched.c:146-147 | with one sync write and three sync reads waiting, `writes_starved` = -1 makes the third call hand on a read where the value 1 hands on the write |
| RohieFindings.IntendedWritesServed | block/rohie-iosched.c:28-29 | with the declared tunables and `starved` zero, some write (an expired async write counts) is handed on within six calls while a sync write waits |

## Left out

- Elevator registration and module load/unload (`block/rohie-iosched.c:229-255`): an ops table and registry calls with no logic.
- Allocation and its failure paths in set-up, and the queue lock around installing the elevator (`block/rohie-iosched.c:188-197`, `211-213`, `226`): allocator and locking plumbing. All calls are taken as serialised.
- `elv_dispatch_add_tail` (`block/rohie-iosched.c:124`) is a call into the block layer. The model returns the request handed on as the `sent` part of a dispatch step.
- `rq_is_sync` / `rq_data_dir` (`block/rohie-iosched.c:59-60`, `162-163`, `174-175`): each request carries its class and direction as fixed tags.
- `jiffies` wrap-around in `time_after` / `time_before`, and the value of `HZ` (`block/rohie-iosched.c:24-27`, `47`, `76`): time is an unbounded integer, and `HZ` is the `hz` parameter of `Init`.
- The `force` argument of the dispatch hook (`block/rohie-iosched.c:134`) is never read, so it does not appear in the model.
- Rohie.Former, Rohie.Latter: these require `rq` to be linked on its own list in a well-formed state. For any other request the result is not meaningful. Which pointers an unlinked request keeps depends on `rq_fifo_clear`, and include/linux/elevator.h is not part of this model.
- RohieInvariants.MergeKeepsTagged, RohieInvariants.MergePreservesWf: these require that, when the merge moves `rq`, `rq` and `next` belong to the same list. The merge hook does not check this: `list_move` puts `rq` on `next`'s list whatever its class and direction. The lemmas therefore take it as an assumption about the caller. Merges that do not move `rq` keep the invariant without it.
- RohieProperties.ExpiredServed: this requires `fifo_batch` to be below the largest unsigned value, so that `batched` can climb past it; with `fifo_batch` = -1 the expired scan never runs. It also bounds only back-to-back dispatch calls at one clock value. A request added to the same list in between becomes the head and buries the expired one (first Findings row).
- RohieProperties.WritesServed, RohieProperties.WriteAfterReads: these require `writes_starved` >= 0 and `fifo_batch` != 0, and `starved` below 2^32 - 2 (for WritesServed only when a batch is due). With `writes_starved` = -1, WRITE is never preferred (Findings). With any other negative value, WRITE is preferred only once `starved` exceeds 2^32 plus that value (at least 2^31), which this bound does not cover. With `fifo_batch` = 0 every call runs the expired scan, and expiring reads can keep overriding the write. With `starved` at the top of its range, one more read wraps it to zero. The bound covers back-to-back dispatch calls only.

## Findings

| source | as written | input that shows it | evidently intended | confidence | as-written member | corrected member |
|---|---|---|---|---|---|---|
| block/rohie-iosched.c:63 | `list_add` links each request at the head of its `fifo_list`. The head is what the expired probe looks at (74-76) and what the normal choice takes (108-116). So each list is LIFO, and the probe sees the newest, least urgent request. | With expiry 1: add sync read `a` at tick 0, then sync read `b` at tick 2. At tick 2, `a` (deadline 1) has expired but `b` (deadline 3) is the head, so the expired scan finds nothing. | Link at the tail (`list_add_tail`). The list is then FIFO and ordered by deadline, so the head probe finds every expiry. | medium; not executed | RohieFindings.BuriedExpiry | RohieFindings.AddTail (with RohieFindings.AddTailFifo, RohieFindings.HeadOldest, RohieFindings.TailExpiryFound) |
| block/rohie-iosched.c:204-209 | Set-up never assigns `writes_starved` or `starved`, and `kmalloc_node` does not zero them. The constant `writes_starved = 1` (line 28) is declared but unused. If the field holds -1, the unsigned comparison at 146 is never true, so WRITE is never preferred. | With one sync write and three sync reads queued and `writes_starved` = -1, the third dispatch call hands on a read. With the value 1, it hands on the write. | `td->writes_starved = writes_starved; td->starved = 0;` in set-up. | high; not executed | RohieFindings.UninitialisedWritesStarved | RohieFindings.InitIntended (with RohieFindings.IntendedWritesServed) |

The main model keeps the code as written: `Rohie.Add` links at the head, and `Rohie.Init` takes the initial `starved` and `writes_starved` as parameters.

=== FILE: findings.dfy ===
/** Two places where the scheduler as written departs from what its own
    names and constants evidently intend, each modelled both ways:

    - requests are linked at the head of their queue, so the queue is LIFO
      and the expired probe, which looks at the head only, looks at the
      newest request; linking at the tail makes the queue FIFO and the head
      the request closest to its deadline;
    - `writes_starved` (and `starved`) are never assigned when the
      scheduler is set up, although a constant `writes_starved = 1` is
      declared for the purpose; with the value left at -1, the preferred
      direction never becomes WRITE, and with any other negative value only
      once `starved` exceeds 2^32 plus that value. */
module RohieFindings {
  import opened Types
  import opened Seqs
  import opened Rohie
  import opened RohieInvariants
  import opened RohieProperties

  // ------------------------------------------------------------ queue order

  /** Add linking at the tail (`list_add_tail`), otherwise as `Add`. */
  function AddTail(s: Sched, rq: Req, now: int): (s': Sched)
    ensures s'.deadline == s.deadline[rq := now + s.expire.For(rq.Home())]
    ensures Queue(s', rq.Home()) == Queue(s, rq.Home()) + [rq]
    ensures forall t :: t != rq.Home() ==> Queue(s', t) == Queue(s, t)
    ensures s'.batched == s.batched && s'.starved == s.starved
    ensures s'.expire == s.expire && s'.fifoBatch == s.fifoBatch && s'.writesStarved == s.writesStarved
    ensures Stamped(s) ==> Stamped(s')
  {
    var t := rq.Home();
    var s1 := WithQueue(s, t, Queue(s, t) + [rq]);
    s1.(deadline := s.deadline[rq := now + s.expire.For(t)])
  }

  /** As written: of two requests linked one after the other on one queue,
      the later one is the head and leaves first. */
  lemma AddLifo(s: Sched, a: Req, b: Req, now1: int, now2: int)
    requires a.Home() == b.Home()
    ensures var q := Queue(Add(Add(s, a, now1), b, now2), a.Home());
            |q| >= 2 && q[0] == b && q[1] == a
  {
  }

  /** Intended: of two requests linked one after the other on one queue,
      the earlier one is nearer the head and leaves first. */
  lemma AddTailFifo(s: Sched, a: Req, b: Req, now1: int, now2: int)
    requires a.Home() == b.Home() && a != b
    requires a !in Queue(s, a.Home()) && b !in Queue(s, a.Home())
    ensures var q := Queue(AddTail(AddTail(s, a, now1), b, now2), a.Home());
            && a in q && b in q
            && IndexOf(q, a) < IndexOf(q, b)
  {
    var t := a.Home();
    var q0 := Queue(s, t);
    var q := Queue(AddTail(AddTail(s, a, now1), b, now2), t);
    assert q == q0 + [a] + [b];
    assert q[..|q0|] == q0;
    assert q[..|q0| + 1] == q0 + [a];
    IndexOfAt(q, |q0|, a);
    IndexOfAt(q, |q0| + 1, b);
  }

  /** Deadlines along queue `t` never decrease from head to tail. */
  ghost predicate Ordered(s: Sched, t: Slot) {
    forall i, j :: 0 <= i < j < |Queue(s, t)| && Queue(s, t)[i] in s.deadline && Queue(s, t)[j] in s.deadline
      ==> s.deadline[Queue(s, t)[i]] <= s.deadline[Queue(s, t)[j]]
  }

  /** Intended: on a queue ordered by deadline, the head has expired exactly
      when some request on the queue has, so probing the head alone finds
      every expiry. */
  lemma HeadOldest(s: Sched, t: Slot, now: int)
    requires Stamped(s)
    requires Ordered(s, t)
    ensures HeadExpired(s, t, now) <==> exists x :: x in Queue(s, t) && Expired(s, x, now)
  {
    var q := Queue(s, t);
    if x :| x in q && Expired(s, x, now) {
      var i :| 0 <= i < |q| && q[i] == x;
      assert q[0] in q;
      if i > 0 {
        assert s.deadline[q[0]] <= s.deadline[q[i]];
      }
    }
    if HeadExpired(s, t, now) {
      assert q[0] in q;
    }
  }

  /** Intended: linking at the tail a request stamped no earlier than
      everything already on its queue keeps the queue ordered by deadline.
      With one expiry per queue this holds whenever the clock does not run
      backwards. */
  lemma AddTailKeepsOrdered(s: Sched, rq: Req, now: int)
    requires Stamped(s)
    requires Ordered(s, rq.Home())
    requires rq !in Queue(s, rq.Home())
    requires forall x :: x in Queue(s, rq.Home()) ==> s.deadline[x] <= now + s.expire.For(rq.Home())
    ensures Ordered(AddTail(s, rq, now), rq.Home())
  {
    var t := rq.Home();
    var s' := AddTail(s, rq, now);
    var q := Queue(s, t);
    var q' := Queue(s', t);
    forall i, j | 0 <= i < j < |q'| && q'[i] in s'.deadline && q'[j] in s'.deadline
      ensures s'.deadline[q'[i]] <= s'.deadline[q'[j]]
    {
      assert q'[i] == q[i] && q[i] in q;
      if j < |q| {
        assert q'[j] == q[j] && q[j] in q;
        assert s.deadline[q[i]] <= s.deadline[q[j]];
      } else {
        assert q'[j] == rq;
      }
    }
  }

  /** As written: a request that has expired under a fresher one on the same
      queue is not found by the expired scan. At tick 2, `a` (deadline 1)
      has expired but `b` (deadline 3), linked after it, is the head. */
  lemma BuriedExpiry()
    ensures var a := Req(1, Sync, Read);
            var b := Req(2, Sync, Read);
            var s := Add(Add(Init(1, 0, 1), a, 0), b, 2);
            && a in Queue(s, Slot(Sync, Read)) && Expired(s, a, 2)
            && ChooseExpired(s, 2) == None
  {
    var a := Req(1, Sync, Read);
    var b := Req(2, Sync, Read);
    var s := Add(Add(Init(1, 0, 1), a, 0), b, 2);
    assert Queue(s, Slot(Sync, Read)) == [b, a];
    assert s.deadline[a] == 1 && s.deadline[b] == 3;
  }

  /** Intended: with tail linking the same two requests leave the expired
      one at the head, where the scan finds it. */
  lemma TailExpiryFound()
    ensures var a := Req(1, Sync, Read);
            var b := Req(2, Sync, Read);
            var s := AddTail(AddTail(Init(1, 0, 1), a, 0), b, 2);
            && Queue(s, Slot(Sync, Read))[0] == a
            && ChooseExpired(s, 2) == Some(Slot(Sync, Read))
  {
    var a := Req(1, Sync, Read);
    var b := Req(2, Sync, Read);
    var s := AddTail(AddTail(Init(1, 0, 1), a, 0), b, 2);
    assert Queue(s, Slot(Sync, Read)) == [a, b];
    assert s.deadline[a] == 1 && s.deadline[b] == 3;
  }

  // -------------------------------------------------------- writes_starved

  /** The value the unused constant `writes_starved` declares. */
  const DefaultWritesStarved: i32 := 1

  /** Set-up with `starved` zeroed and `writes_starved` taken from its
      constant, as the declared constants intend. */
  function InitIntended(hz: int): (s: Sched)
    ensures AllEmpty(s) && Wf(s)
    ensures s.batched == 0 && s.starved == 0
    ensures s.fifoBatch == 1 && s.writesStarved == DefaultWritesStarved
  {
    Init(hz, 0, DefaultWritesStarved)
  }

  /** One synchronous write followed by three synchronous reads, all
      stamped at tick 0 with expiry 100. */
  function Loaded(writesStarved: i32): Sched {
    Add(Add(Add(Add(Init(100, 0, writesStarved),
      Req(0, Sync, Write), 0), Req(1, Sync, Read), 0), Req(2, Sync, Read), 0), Req(3, Sync, Read), 0)
  }

  /** The shape of `Loaded` after `k` calls: the reads still waiting on the
      synchronous read queue, the write on the synchronous write queue, and
      `batched` and `starved` both equal to `k`. */
  ghost predicate Holding(s: Sched, waiting: seq<Req>, writesStarved: i32, k: nat) {
    && Stamped(s)
    && Queue(s, Slot(Sync, Read)) == waiting
    && Queue(s, Slot(Sync, Write)) == [Req(0, Sync, Write)]
    && Queue(s, Slot(Async, Read)) == [] && Queue(s, Slot(Async, Write)) == []
    && s.batched == k && s.starved == k
    && s.fifoBatch == 1 && s.writesStarved == writesStarved
    && forall r :: r in s.deadline ==> s.deadline[r] == 100
  }

  lemma LoadedHolding(writesStarved: i32)
    ensures Holding(Loaded(writesStarved), [Req(3, Sync, Read), Req(2, Sync, Read), Req(1, Sync, Read)], writesStarved, 0)
  {
  }

  /** While no batch is due and READ is preferred, a call hands on the
      newest read. */
  lemma ReadCall(s: Sched, waiting: seq<Req>, writesStarved: i32, k: nat)
    requires Holding(s, waiting, writesStarved, k)
    requires waiting != [] && k <= 1
    requires writesStarved == -1 || writesStarved == DefaultWritesStarved
    ensures Dispatch(s, 0).sent == Some(waiting[0])
    ensures waiting[0].dir == Read ==> Holding(Dispatch(s, 0).state, waiting[1..], writesStarved, k + 1)
  {
    assert !BatchDue(s) && PreferredDir(s) == Read;
    NormalPath(s, 0);
  }

  /** The third call: the batch is due but nothing has expired, and
      `starved` = 2 decides the direction. */
  lemma ThirdCall(s: Sched, writesStarved: i32)
    requires Holding(s, [Req(1, Sync, Read)], writesStarved, 2)
    requires writesStarved == -1 || writesStarved == DefaultWritesStarved
    ensures Dispatch(s, 0).sent ==
              if writesStarved == -1 then Some(Req(1, Sync, Read)) else Some(Req(0, Sync, Write))
  {
    forall u
      ensures !HeadExpired(s, u, 0)
    {
      if Queue(s, u) != [] {
        assert Queue(s, u)[0] in Queue(s, u);
      }
    }
    NormalPath(s, 0);
  }

  /** As written: if the allocator leaves `writes_starved` at -1, three
      dispatch calls hand on the three reads, newest first, and the write
      keeps waiting; with the intended value 1 the third call hands on the
      write. */
  lemma UninitialisedWritesStarved(writesStarved: i32)
    requires writesStarved == -1 || writesStarved == DefaultWritesStarved
    ensures var d1 := Dispatch(Loaded(writesStarved), 0);
            var d2 := Dispatch(d1.state, 0);
            && d1.sent == Some(Req(3, Sync, Read))
            && d2.sent == Some(Req(2, Sync, Read))
            && Dispatch(d2.state, 0).sent ==
                 if writesStarved == -1 then Some(Req(1, Sync, Read)) else Some(Req(0, Sync, Write))
  {
    var r1, r2, r3 := Req(1, Sync, Read), Req(2, Sync, Read), Req(3, Sync, Read);
    var s0 := Loaded(writesStarved);
    LoadedHolding(writesStarved);
    ReadCall(s0, [r3, r2, r1], writesStarved, 0);
    var s1 := Dispatch(s0, 0).state;
    assert [r3, r2, r1][1..] == [r2, r1];
    ReadCall(s1, [r2, r1], writesStarved, 1);
    var s2 := Dispatch(s1, 0).state;
    assert [r2, r1][1..] == [r1];
    ThirdCall(s2, writesStarved);
  }

  /** Intended: once `writes_starved` holds its declared value and
      `fifo_batch` its set-up value and `starved` is zero, some write (an
      expired asynchronous write counts) is handed on within six calls while
      a synchronous write waits. */
  lemma IntendedWritesServed(s: Sched, now: int)
    requires Wf(s)
    requires Queue(s, Slot(Sync, Write)) != []
    requires s.writesStarved == DefaultWritesStarved && s.fifoBatch == 1
    requires s.starved == 0
    ensures exists x :: x in Run(s, now, 6).sent && x.dir == Write
  {
    WritesServed(s, now);
    var w :| w in Run(s, now, StarveWait(s)).sent && w.dir == Write;
    RunPrefix(s, now, StarveWait(s), 6);
  }
}

=== FILE: invariants.dfy ===
/** The bookkeeping invariant of the scheduler (every queued request stamped,
    linked at most once, and on the queue its tags select) and the proof that
    add, dispatch and merge keep it, together with exactly which requests each
    operation links and unlinks. */
module RohieInvariants {
  import opened Types
  import opened Seqs
  import opened Rohie

  /** When two states differ at most in queue `t`, so do their links. */
  lemma LinksFrame(a: Sched, b: Sched, t: Slot, y: Req)
    requires forall u :: u != t ==> Queue(b, u) == Queue(a, u)
    ensures Links(b, y) + Occ(Queue(a, t), y) == Links(a, y) + Occ(Queue(b, t), y)
  {
    var ar, aw, sr, sw := Slot(Async, Read), Slot(Async, Write), Slot(Sync, Read), Slot(Sync, Write);
    match t
    case Slot(Async, Read) =>
      assert b.asyncWrite == a.asyncWrite by { assert Queue(b, aw) == Queue(a, aw); }
      assert b.syncRead == a.syncRead by { assert Queue(b, sr) == Queue(a, sr); }
      assert b.syncWrite == a.syncWrite by { assert Queue(b, sw) == Queue(a, sw); }
    case Slot(Async, Write) =>
      assert b.asyncRead == a.asyncRead by { assert Queue(b, ar) == Queue(a, ar); }
      assert b.syncRead == a.syncRead by { assert Queue(b, sr) == Queue(a, sr); }
      assert b.syncWrite == a.syncWrite by { assert Queue(b, sw) == Queue(a, sw); }
    case Slot(Sync, Read) =>
      assert b.asyncRead == a.asyncRead by { assert Queue(b, ar) == Queue(a, ar); }
      assert b.asyncWrite == a.asyncWrite by { assert Queue(b, aw) == Queue(a, aw); }
      assert b.syncWrite == a.syncWrite by { assert Queue(b, sw) == Queue(a, sw); }
    case Slot(Sync, Write) =>
      assert b.asyncRead == a.asyncRead by { assert Queue(b, ar) == Queue(a, ar); }
      assert b.asyncWrite == a.asyncWrite by { assert Queue(b, aw) == Queue(a, aw); }
      assert b.syncRead == a.syncRead by { assert Queue(b, sr) == Queue(a, sr); }
  }

  /** When two states differ at most in queue `t`, so do their sizes. */
  lemma SizeFrame(a: Sched, b: Sched, t: Slot)
    requires forall u :: u != t ==> Queue(b, u) == Queue(a, u)
    ensures Size(b) + |Queue(a, t)| == Size(a) + |Queue(b, t)|
  {
    assert b.asyncRead == Queue(b, Slot(Async, Read)) && a.asyncRead == Queue(a, Slot(Async, Read));
    assert b.asyncWrite == Queue(b, Slot(Async, Write)) && a.asyncWrite == Queue(a, Slot(Async, Write));
    assert b.syncRead == Queue(b, Slot(Sync, Read)) && a.syncRead == Queue(a, Slot(Sync, Read));
    assert b.syncWrite == Queue(b, Slot(Sync, Write)) && a.syncWrite == Queue(a, Slot(Sync, Write));
  }

  /** Add links exactly `rq`, once more. */
  lemma AddLinks(s: Sched, rq: Req, now: int)
    ensures forall y :: Links(Add(s, rq, now), y) == Links(s, y) + (if y == rq then 1 else 0)
    ensures Size(Add(s, rq, now)) == Size(s) + 1
  {
    var s' := Add(s, rq, now);
    var t := rq.Home();
    forall y
      ensures Links(s', y) == Links(s, y) + (if y == rq then 1 else 0)
    {
      LinksFrame(s, s', t, y);
      OccCons(rq, Queue(s, t), y);
    }
    SizeFrame(s, s', t);
  }

  /** Dispatch unlinks exactly the request it hands on, once, and nothing
      when it hands on nothing. */
  lemma DispatchLinks(s: Sched, now: int, y: Req)
    requires Stamped(s)
    ensures Links(Dispatch(s, now).state, y) == Links(s, y) - (if Dispatch(s, now).sent == Some(y) then 1 else 0)
  {
    var o := Dispatch(s, now);
    if o.sent.None? {
      LinksFrame(s, o.state, Slot(Async, Read), y);
    } else {
      var t := Decide(s, now).value;
      var q := Queue(s, t);
      assert q == [o.sent.value] + q[1..];
      LinksFrame(s, o.state, t, y);
      OccCons(o.sent.value, q[1..], y);
    }
  }

  /** Dispatch shortens the queues by one exactly when it hands on a request,
      and the request it hands on was linked. */
  lemma DispatchSize(s: Sched, now: int)
    requires Stamped(s)
    ensures var o := Dispatch(s, now);
            && Size(o.state) + (if o.sent.Some? then 1 else 0) == Size(s)
            && (o.sent.Some? ==> Queued(s, o.sent.value))
  {
    var o := Dispatch(s, now);
    if o.sent.None? {
      SizeFrame(s, o.state, Slot(Async, Read));
    } else {
      var t := Decide(s, now).value;
      SizeFrame(s, o.state, t);
      assert Queue(s, t)[0] in Queue(s, t);
      match t
      case Slot(Async, Read) =>
      case Slot(Async, Write) =>
      case Slot(Sync, Read) =>
      case Slot(Sync, Write) =>
    }
  }

  /** Occurrences on one queue after a merge. */
  lemma MergeQueueOcc(q: seq<Req>, rq: Req, next: Req, moves: bool, y: Req)
    requires moves ==> rq != next
    ensures Occ(MergeQueue(q, rq, next, moves), y) ==
              if y == next then 0
              else if moves && y == rq then Occ(q, next)
              else Occ(q, y)
  {
    if moves {
      var w := Without(q, rq);
      WithoutOcc(q, rq, y);
      WithoutOcc(q, rq, next);
      WithoutOcc(q, rq, rq);
      ReplaceOcc(w, next, rq, y);
    } else {
      WithoutOcc(q, next, y);
    }
  }

  /** Merge unlinks `next` and, when it moves `rq`, links `rq` once for every
      link `next` had instead of the links `rq` had; nobody else is linked or
      unlinked. */
  lemma MergeLinks(s: Sched, rq: Req, next: Req, y: Req)
    requires Stamped(s)
    ensures Links(Merge(s, rq, next), y) ==
              if y == next then 0
              else if MergeMoves(s, rq, next) && y == rq then Links(s, next)
              else Links(s, y)
  {
    var s' := Merge(s, rq, next);
    var moves := MergeMoves(s, rq, next);
    assert s'.asyncRead == Queue(s', Slot(Async, Read)) == MergeQueue(s.asyncRead, rq, next, moves);
    assert s'.asyncWrite == Queue(s', Slot(Async, Write)) == MergeQueue(s.asyncWrite, rq, next, moves);
    assert s'.syncRead == Queue(s', Slot(Sync, Read)) == MergeQueue(s.syncRead, rq, next, moves);
    assert s'.syncWrite == Queue(s', Slot(Sync, Write)) == MergeQueue(s.syncWrite, rq, next, moves);
    MergeQueueOcc(s.asyncRead, rq, next, moves, y);
    MergeQueueOcc(s.asyncWrite, rq, next, moves, y);
    MergeQueueOcc(s.syncRead, rq, next, moves, y);
    MergeQueueOcc(s.syncWrite, rq, next, moves, y);
  }

  // ---------------------------------------------------------- preservation

  /** Adding a request that is not yet linked keeps the invariant. */
  lemma AddPreservesWf(s: Sched, rq: Req, now: int)
    requires Wf(s)
    requires !Queued(s, rq)
    ensures Wf(Add(s, rq, now))
  {
    var s' := Add(s, rq, now);
    AddLinks(s, rq, now);
    assert Links(s, rq) == 0;
    forall t, r | r in Queue(s', t)
      ensures r.Home() == t
    {
      if t == rq.Home() {
        assert r == rq || r in Queue(s, t);
      } else {
        assert r in Queue(s, t);
      }
    }
  }

  /** Dispatch keeps the invariant. */
  lemma DispatchPreservesWf(s: Sched, now: int)
    requires Wf(s)
    ensures Wf(Dispatch(s, now).state)
  {
    var o := Dispatch(s, now);
    forall r
      ensures Links(o.state, r) <= 1
    {
      DispatchLinks(s, now, r);
      assert Links(s, r) <= 1;
    }
    forall t, r | r in Queue(o.state, t)
      ensures r.Home() == t
    {
      if o.sent.Some? {
        var u := Decide(s, now).value;
        if t == u {
          assert Queue(s, t) == [Queue(s, t)[0]] + Queue(o.state, t);
        }
      }
      assert r in Queue(s, t);
    }
  }

  /** Membership on one queue after a merge. */
  lemma MergeQueueMembers(q: seq<Req>, rq: Req, next: Req, moves: bool)
    requires moves ==> rq != next
    ensures forall y :: y in MergeQueue(q, rq, next, moves) ==> (y in q && y != next) || (moves && y == rq && next in q)
  {
    forall y | y in MergeQueue(q, rq, next, moves)
      ensures (y in q && y != next) || (moves && y == rq && next in q)
    {
      MergeQueueOcc(q, rq, next, moves, y);
    }
  }

  /** A merge links nobody twice that was linked at most once. */
  lemma MergeKeepsPartition(s: Sched, rq: Req, next: Req)
    requires Stamped(s) && Partitioned(s)
    ensures Partitioned(Merge(s, rq, next))
  {
    forall r
      ensures Links(Merge(s, rq, next), r) <= 1
    {
      MergeLinks(s, rq, next, r);
      assert Links(s, r) <= 1 && Links(s, next) <= 1;
    }
  }

  /** What a queue holds after a merge: what it held before, other than
      `next`, or `rq` put where `next` stood. */
  lemma MergeMember(s: Sched, rq: Req, next: Req, t: Slot, r: Req)
    requires Stamped(s)
    requires r in Queue(Merge(s, rq, next), t)
    ensures (r in Queue(s, t) && r != next) || (MergeMoves(s, rq, next) && r == rq && next in Queue(s, t))
  {
    var moves := MergeMoves(s, rq, next);
    MergeQueueMembers(Queue(s, t), rq, next, moves);
  }

  /** A merge drops no deadline. */
  lemma MergeKeepsStamp(s: Sched, rq: Req, next: Req, r: Req)
    requires Stamped(s)
    requires r in s.deadline
    ensures r in Merge(s, rq, next).deadline
  {
  }

  /** After a merge every queued request still carries a deadline. */
  lemma MergeKeepsStamped(s: Sched, rq: Req, next: Req)
    requires Stamped(s)
    ensures Stamped(Merge(s, rq, next))
  {
    forall t, r | r in Queue(Merge(s, rq, next), t)
      ensures r in Merge(s, rq, next).deadline
    {
      MergeMember(s, rq, next, t, r);
      MergeKeepsStamp(s, rq, next, if r in Queue(s, t) then r else next);
    }
  }

  /** After a merge every request is still on its own queue, provided a
      merge that moves `rq` moves it onto its own queue. */
  lemma MergeKeepsTagged(s: Sched, rq: Req, next: Req)
    requires Stamped(s) && Tagged(s)
    requires MergeMoves(s, rq, next) ==> rq.Home() == next.Home()
    ensures Tagged(Merge(s, rq, next))
  {
    forall t, r | r in Queue(Merge(s, rq, next), t)
      ensures r.Home() == t
    {
      MergeMember(s, rq, next, t, r);
    }
  }

  /** A merge keeps the invariant, provided a merge that moves `rq` moves it
      onto its own queue. */
  lemma MergePreservesWf(s: Sched, rq: Req, next: Req)
    requires Wf(s)
    requires MergeMoves(s, rq, next) ==> rq.Home() == next.Home()
    ensures Wf(Merge(s, rq, next))
  {
    MergeKeepsPartition(s, rq, next);
    MergeKeepsStamped(s, rq, next);
    MergeKeepsTagged(s, rq, next);
  }

  // ------------------------------------------------------------ merge shape

  /** Apart from `rq` and `next`, every queue keeps the same requests in the
      same order across a merge. */
  lemma MergeMovesNothingElse(s: Sched, rq: Req, next: Req)
    requires Stamped(s)
    ensures forall t :: Without(Without(Queue(Merge(s, rq, next), t), rq), next)
                        == Without(Without(Queue(s, t), rq), next)
  {
    var s' := Merge(s, rq, next);
    var moves := MergeMoves(s, rq, next);
    forall t
      ensures Without(Without(Queue(s', t), rq), next) == Without(Without(Queue(s, t), rq), next)
    {
      var q := Queue(s, t);
      var w := Without(q, rq);
      if moves {
        WithoutReplace(w, next, rq);
        assert Without(Queue(s', t), rq) == Without(w, next);
        WithoutAbsent(Without(w, next), rq);
        WithoutCommutes(w, next, rq);
        WithoutAbsent(Without(w, next), next);
      } else {
        WithoutCommutes(q, next, rq);
        WithoutCommutes(Without(q, next), rq, next);
        WithoutAbsent(Without(q, next), next);
      }
    }
  }

  /** When a merge moves `rq`, `rq` ends up on `next`'s queue at the position
      `next` held once `rq` itself is unlinked. */
  lemma MergeTakesPlace(s: Sched, rq: Req, next: Req, t: Slot)
    requires Stamped(s)
    requires MergeMoves(s, rq, next)
    requires next in Queue(s, t)
    ensures var q' := Queue(Merge(s, rq, next), t);
            rq in q' && IndexOf(q', rq) == IndexOf(Without(Queue(s, t), rq), next)
  {
    var w := Without(Queue(s, t), rq);
    assert rq != next;
    assert Queue(Merge(s, rq, next), t) == Replace(w, next, rq);
    WithoutOcc(Queue(s, t), rq, next);
    IndexOfReplace(w, next, rq);
  }

  /** When a merge moves `rq` in a well-formed state, `rq` ends up on `next`'s
      queue alone. */
  lemma MergeLandsOnce(s: Sched, rq: Req, next: Req, t: Slot, u: Slot)
    requires Wf(s)
    requires MergeMoves(s, rq, next)
    requires next in Queue(s, t)
    requires u != t
    ensures rq !in Queue(Merge(s, rq, next), u)
  {
    assert rq != next;
    MergeQueueOcc(Queue(s, u), rq, next, true, rq);
    if rq in Queue(Merge(s, rq, next), u) {
      assert next in Queue(s, u);
      assert Links(s, next) <= 1;
      SlotCount(s, next, t, u);
    }
  }

  /** A request linked on two different queues is linked twice. */
  lemma SlotCount(s: Sched, r: Req, t: Slot, u: Slot)
    requires t != u
    requires r in Queue(s, t) && r in Queue(s, u)
    ensures Links(s, r) >= 2
  {
    match t
    case Slot(Async, Read) =>
    case Slot(Async, Write) =>
    case Slot(Sync, Read) =>
    case Slot(Sync, Write) =>
  }

  /** When a merge does not move `rq`, `rq` stays on the queues it was on and
      keeps its deadline. */
  lemma MergeKeepsPlace(s: Sched, rq: Req, next: Req)
    requires Stamped(s)
    requires !MergeMoves(s, rq, next)
    requires rq != next
    ensures forall t :: rq in Queue(Merge(s, rq, next), t) <==> rq in Queue(s, t)
    ensures Merge(s, rq, next).deadline == s.deadline
  {
    var s' := Merge(s, rq, next);
    forall t
      ensures rq in Queue(s', t) <==> rq in Queue(s, t)
    {
      WithoutOcc(Queue(s, t), next, rq);
    }
  }
}

=== FILE: properties.dfy ===
/** What the scheduler promises over several calls: a queue drains in as many
    dispatch calls as it holds requests, handing each one on exactly as often
    as it was linked; the expired scan, when due, takes precedence over the
    normal choice; an expired head is served within one batch; while a
    synchronous write waits, some write (an expired asynchronous write
    counts) is served within a bounded number of calls; within one
    queue the newest request leaves first; and former/latter are inverse. */
module RohieProperties {
  import opened Types
  import opened Seqs
  import opened Rohie
  import opened RohieInvariants

  // ------------------------------------------------------------------- runs

  /** The state after some dispatch calls and the requests they handed on,
      in order. */
  datatype Trace = Trace(final: Sched, sent: seq<Req>)

  /** `n` successive calls of the dispatch hook at clock value `now`. */
  function Run(s: Sched, now: int, n: nat): (tr: Trace)
    requires Stamped(s)
    ensures Stamped(tr.final)
    ensures |tr.sent| <= n
    decreases n
  {
    if n == 0 then Trace(s, [])
    else
      var o := Dispatch(s, now);
      var rest := Run(o.state, now, n - 1);
      Trace(rest.final, (if o.sent.Some? then [o.sent.value] else []) + rest.sent)
  }

  /** Every dispatch call hands on one request until the queues are empty. */
  lemma {:induction false} RunConserves(s: Sched, now: int, n: nat)
    requires Stamped(s)
    ensures |Run(s, now, n).sent| == Min(n, Size(s))
    ensures |Run(s, now, n).sent| + Size(Run(s, now, n).final) == Size(s)
    decreases n
  {
    if n > 0 {
      var m: nat := n - 1;
      DispatchSize(s, now);
      RunConserves(Dispatch(s, now).state, now, m);
      RunStepLength(s, now, m);
      if Dispatch(s, now).sent.None? {
        EmptyQueues(s);
      }
    }
  }

  /** A run of `m + 1` calls sends what its first call sends and then what
      the remaining `m` calls send. */
  lemma RunStepLength(s: Sched, now: int, m: nat)
    requires Stamped(s)
    ensures var o := Dispatch(s, now);
            && Run(s, now, m + 1).final == Run(o.state, now, m).final
            && |Run(s, now, m + 1).sent| == (if o.sent.Some? then 1 else 0) + |Run(o.state, now, m).sent|
  {
  }

  /** Dispatch calls hand on requests without creating or losing any: for
      each request, the times it was sent plus the times it is still linked
      are the times it was linked. */
  lemma {:induction false} RunKeepsLinks(s: Sched, now: int, n: nat, y: Req)
    requires Stamped(s)
    ensures Occ(Run(s, now, n).sent, y) + Links(Run(s, now, n).final, y) == Links(s, y)
    decreases n
  {
    if n > 0 {
      var m: nat := n - 1;
      DispatchLinks(s, now, y);
      RunKeepsLinks(Dispatch(s, now).state, now, m, y);
      RunStep(s, now, m, y);
    }
  }

  /** A run of `n > 0` calls is its first call followed by a run of `n - 1`,
      counted for one request. */
  lemma RunStep(s: Sched, now: int, m: nat, y: Req)
    requires Stamped(s)
    ensures var o := Dispatch(s, now);
            && Run(s, now, m + 1).final == Run(o.state, now, m).final
            && Occ(Run(s, now, m + 1).sent, y) == (if o.sent == Some(y) then 1 else 0) + Occ(Run(o.state, now, m).sent, y)
  {
    var o := Dispatch(s, now);
    var rest := Run(o.state, now, m);
    if o.sent.Some? {
      OccCons(o.sent.value, rest.sent, y);
    } else {
      assert Run(s, now, m + 1).sent == rest.sent;
    }
  }

  /** As many dispatch calls as there are linked requests empty the
      scheduler, so that it may be torn down, and hand on every request
      exactly as often as it was linked: exactly once in a well-formed state. */
  lemma Drain(s: Sched, now: int)
    requires Stamped(s)
    ensures CanExit(Run(s, now, Size(s)).final)
    ensures forall y :: Occ(Run(s, now, Size(s)).sent, y) == Links(s, y)
    ensures Partitioned(s) ==> Distinct(Run(s, now, Size(s)).sent)
  {
    RunConserves(s, now, Size(s));
    var tr := Run(s, now, Size(s));
    assert Size(tr.final) == 0;
    forall y
      ensures Occ(tr.sent, y) == Links(s, y)
    {
      RunKeepsLinks(s, now, Size(s), y);
      assert Links(tr.final, y) == 0 by {
        assert tr.final.asyncRead == [] && tr.final.asyncWrite == [];
        assert tr.final.syncRead == [] && tr.final.syncWrite == [];
      }
    }
    if Partitioned(s) {
      forall y
        ensures Occ(tr.sent, y) <= 1
      {
        assert Links(s, y) <= 1;
      }
      AtMostOnceIsDistinct(tr.sent);
    }
  }

  /** A shorter run hands on a prefix of what a longer one hands on. */
  lemma {:induction false} RunPrefix(s: Sched, now: int, k: nat, k2: nat)
    requires Stamped(s)
    requires k <= k2
    ensures Run(s, now, k).sent <= Run(s, now, k2).sent
    ensures forall x :: x in Run(s, now, k).sent ==> x in Run(s, now, k2).sent
    decreases k
  {
    if k > 0 {
      var o := Dispatch(s, now);
      var m: nat, m2: nat := k - 1, k2 - 1;
      RunPrefix(o.state, now, m, m2);
    }
    var a, b := Run(s, now, k).sent, Run(s, now, k2).sent;
    forall x | x in a
      ensures x in b
    {
      var i :| 0 <= i < |a| && a[i] == x;
      assert b[i] == x;
    }
  }

  // -------------------------------------------------------------- one call

  /** When a batch is due and some head has expired, the call hands on the
      expired head of the first queue in scan order, whatever the normal
      choice would have been. */
  lemma ExpiredOverrides(s: Sched, now: int, t: Slot)
    requires Stamped(s)
    requires BatchDue(s)
    requires HeadExpired(s, t, now)
    requires forall u :: ScanRank(u) < ScanRank(t) ==> !HeadExpired(s, u, now)
    ensures Dispatch(s, now).sent == Some(Queue(s, t)[0])
    ensures Queue(Dispatch(s, now).state, t) == Queue(s, t)[1..]
    ensures Dispatch(s, now).state.batched == 1
  {
    var e := ChooseExpired(s, now);
    assert e.Some?;
    assert ScanRank(e.value) == ScanRank(t);
    assert e.value == t;
  }

  /** When no batch is due, or none of the four heads has expired, the call
      hands on the head of the first non-empty queue in the order sync
      preferred, sync other, async preferred, async other. */
  lemma NormalPath(s: Sched, now: int)
    requires Stamped(s)
    requires !AllEmpty(s)
    requires !BatchDue(s) || forall u :: !HeadExpired(s, u, now)
    ensures var t := ChooseNormal(s, PreferredDir(s)).value;
            && Dispatch(s, now).sent == Some(Queue(s, t)[0])
            && Queue(Dispatch(s, now).state, t) == Queue(s, t)[1..]
            && forall u :: NormalRank(PreferredDir(s), u) < NormalRank(PreferredDir(s), t) ==> Queue(s, u) == []
  {
  }

  /** The choices look at the queue heads only: two states whose queues are
      empty in the same places and agree on the heads and their deadlines
      choose alike. */
  lemma HeadsDecide(a: Sched, b: Sched, now: int)
    requires Stamped(a) && Stamped(b)
    requires forall t :: (Queue(a, t) == []) == (Queue(b, t) == [])
    requires forall t :: Queue(a, t) != [] ==> Queue(a, t)[0] == Queue(b, t)[0]
    requires forall r :: r in a.deadline && r in b.deadline ==> a.deadline[r] == b.deadline[r]
    ensures ChooseExpired(a, now) == ChooseExpired(b, now)
    ensures forall d :: ChooseNormal(a, d) == ChooseNormal(b, d)
  {
    forall t
      ensures HeadExpired(a, t, now) == HeadExpired(b, t, now)
    {
      if Queue(a, t) != [] {
        var h := Queue(a, t)[0];
        assert h in Queue(a, t) && h in Queue(b, t);
      }
    }
  }

  // -------------------------------------------------------------- fairness

  /** Every request on queue `t` is still within its deadline. */
  ghost predicate Fresh(s: Sched, t: Slot, now: int) {
    forall x :: x in Queue(s, t) ==> x in s.deadline && now <= s.deadline[x]
  }

  /** Calls until the next expired scan: one if a batch is due now, else
      enough normal dispatches to push `batched` past `fifo_batch`, plus one. */
  function BatchWait(s: Sched): nat
    requires BatchDue(s) || ToUnsigned(s.fifoBatch) < U32 - 1
  {
    if BatchDue(s) then 1 else ToUnsigned(s.fifoBatch) + 2 - s.batched
  }

  /** What the first call of a run hands on is among what the run hands on. */
  lemma RunFirst(s: Sched, now: int, n: nat)
    requires Stamped(s)
    requires n > 0 && Dispatch(s, now).sent.Some?
    ensures Dispatch(s, now).sent.value in Run(s, now, n).sent
  {
  }

  /** What the later calls of a run hand on is among what the run hands on. */
  lemma RunLater(s: Sched, now: int, m: nat, x: Req)
    requires Stamped(s)
    requires x in Run(Dispatch(s, now).state, now, m).sent
    ensures x in Run(s, now, m + 1).sent
  {
  }

  /** A queue whose requests are all within their deadlines stays so across
      a dispatch call at the same clock value. */
  lemma FreshKept(s: Sched, now: int, u: Slot)
    requires Stamped(s)
    requires Fresh(s, u, now)
    ensures Fresh(Dispatch(s, now).state, u, now)
  {
    var o := Dispatch(s, now);
    if o.sent.Some? && Decide(s, now).value == u {
      assert Queue(o.state, u) == Queue(s, u)[1..];
    }
  }

  /** A head of a queue whose requests are all within their deadlines has
      not expired. */
  lemma FreshHead(s: Sched, u: Slot, now: int)
    requires Fresh(s, u, now)
    ensures !HeadExpired(s, u, now)
  {
    if Queue(s, u) != [] {
      assert Queue(s, u)[0] in Queue(s, u);
    }
  }

  /** Queue `t` has an expired head and every queue before it in scan order
      holds only requests within their deadlines. */
  ghost predicate FirstExpired(s: Sched, t: Slot, now: int) {
    HeadExpired(s, t, now) && forall u :: ScanRank(u) < ScanRank(t) ==> Fresh(s, u, now)
  }

  /** A call that runs the expired scan hands on the first expired head. */
  lemma DueServes(s: Sched, now: int, t: Slot)
    requires Stamped(s)
    requires BatchDue(s)
    requires FirstExpired(s, t, now)
    ensures Dispatch(s, now).sent == Some(Queue(s, t)[0])
  {
    forall u | ScanRank(u) < ScanRank(t)
      ensures !HeadExpired(s, u, now)
    {
      FreshHead(s, u, now);
    }
    ExpiredOverrides(s, now, t);
  }

  /** A call that does not run the expired scan either hands on the first
      expired head or leaves it in place, still first, one step nearer to
      the next scan. */
  lemma NormalKeeps(s: Sched, now: int, t: Slot)
    requires Stamped(s)
    requires !BatchDue(s)
    requires FirstExpired(s, t, now)
    requires ToUnsigned(s.fifoBatch) < U32 - 1
    ensures var o := Dispatch(s, now);
            || o.sent == Some(Queue(s, t)[0])
            || (&& FirstExpired(o.state, t, now)
                && Queue(o.state, t)[0] == Queue(s, t)[0]
                && o.state.batched == s.batched + 1
                && o.state.fifoBatch == s.fifoBatch)
  {
    var o := Dispatch(s, now);
    assert Queue(s, t) != [];
    if Decide(s, now).value != t {
      assert Queue(o.state, t) == Queue(s, t);
      forall u | ScanRank(u) < ScanRank(t)
        ensures Fresh(o.state, u, now)
      {
        FreshKept(s, now, u);
      }
    }
  }

  /** An expired head whose queue comes first in scan order among the queues
      that could hold expired requests is handed on before the next expired
      scan is over, however the normal choice runs meanwhile. */
  lemma {:induction false} ExpiredServed(s: Sched, now: int, t: Slot)
    requires Stamped(s)
    requires FirstExpired(s, t, now)
    requires ToUnsigned(s.fifoBatch) < U32 - 1
    ensures Queue(s, t)[0] in Run(s, now, BatchWait(s)).sent
    decreases BatchWait(s)
  {
    if BatchDue(s) {
      DueServes(s, now, t);
      RunFirst(s, now, 1);
    } else {
      NormalKeeps(s, now, t);
      var o := Dispatch(s, now);
      if o.sent == Some(Queue(s, t)[0]) {
        RunFirst(s, now, BatchWait(s));
      } else {
        var m: nat := BatchWait(s) - 1;
        ExpiredServed(o.state, now, t);
        RunPrefix(o.state, now, BatchWait(o.state), m);
        RunLater(s, now, m, Queue(s, t)[0]);
      }
    }
  }

  /** Calls within which some write is handed on while a synchronous write
      waits (an expired asynchronous write counts). Two calls
      are allowed for every step `starved` still has to climb past
      `writes_starved`, one of them possibly spent in the expired scan. */
  function StarveWait(s: Sched): nat
    requires 0 <= s.writesStarved
  {
    (if s.starved > s.writesStarved then 0 else 2 * (s.writesStarved + 1 - s.starved))
    + (if BatchDue(s) then 2 else 1)
  }

  /** `starved` is far enough below the largest unsigned value that the one
      read an expired scan may take before a write cannot wrap it to zero. */
  ghost predicate StarveBounded(s: Sched) {
    BatchDue(s) ==> s.starved < U32 - 2
  }

  /** A synchronous write waits, in a state where the starvation bound
      applies: `fifo_batch` is not zero and `writes_starved` not negative. */
  ghost predicate WriteWaits(s: Sched) {
    && Wf(s)
    && Queue(s, Slot(Sync, Write)) != []
    && s.fifoBatch != 0 && 0 <= s.writesStarved
    && StarveBounded(s)
  }

  /** One call while a synchronous write waits either hands on a write, or
      hands on a read and leaves the write waiting with a smaller bound. */
  lemma WriteStep(s: Sched, now: int)
    requires WriteWaits(s)
    ensures var o := Dispatch(s, now);
            && o.sent.Some?
            && (o.sent.value.dir == Read ==> WriteWaits(o.state) && StarveWait(o.state) < StarveWait(s))
  {
    var sw := Slot(Sync, Write);
    var o := Dispatch(s, now);
    assert Queue(s, sw) != [];
    var v := Decide(s, now).value;
    var x := o.sent.value;
    assert x in Queue(s, v);
    if x.dir == Read {
      assert x.Home() == v;
      DispatchPreservesWf(s, now);
      assert Queue(o.state, sw) == Queue(s, sw);
      if !BatchDue(s) && s.starved > s.writesStarved {
        assert false;
      }
      assert o.state.starved == s.starved + 1;
    }
  }

  /** Writes are not starved: while the synchronous write queue holds a
      request, some write is handed on within `StarveWait` calls, once
      `fifo_batch` is not zero and `writes_starved` is not negative. */
  lemma {:induction false} WritesServed(s: Sched, now: int)
    requires WriteWaits(s)
    ensures exists x :: x in Run(s, now, StarveWait(s)).sent && x.dir == Write
    decreases StarveWait(s)
  {
    var o := Dispatch(s, now);
    var n := StarveWait(s);
    WriteStep(s, now);
    RunFirst(s, now, n);
    if o.sent.value.dir == Read {
      var m: nat := n - 1;
      WritesServed(o.state, now);
      var w :| w in Run(o.state, now, StarveWait(o.state)).sent && w.dir == Write;
      RunPrefix(o.state, now, StarveWait(o.state), m);
      RunLater(s, now, m, w);
    }
  }

  /** Once `starved` has passed `writes_starved`, for instance because reads
      went out while no write waited or because it started out large,
      some write is handed on within two calls while a synchronous write
      waits (an expired asynchronous write counts; handing it on resets
      `starved`, and the synchronous write may wait on). */
  lemma WriteAfterReads(s: Sched, now: int)
    requires Wf(s)
    requires Queue(s, Slot(Sync, Write)) != []
    requires s.fifoBatch != 0 && 0 <= s.writesStarved
    requires s.writesStarved < s.starved < U32 - 2
    ensures exists x :: x in Run(s, now, 2).sent && x.dir == Write
  {
    WritesServed(s, now);
    var w :| w in Run(s, now, StarveWait(s)).sent && w.dir == Write;
    RunPrefix(s, now, StarveWait(s), 2);
  }

  // ---------------------------------------------------------- former/latter

  /** Former and latter are inverse to each other on a well-formed state. */
  lemma FormerLatter(s: Sched, rq: Req)
    requires Wf(s)
    requires rq in Queue(s, rq.Home())
    ensures var p := Former(s, rq);
            p.Some? ==> p.value.Home() == rq.Home() && Latter(s, p.value) == Some(rq)
    ensures var n := Latter(s, rq);
            n.Some? ==> n.value.Home() == rq.Home() && Former(s, n.value) == Some(rq)
  {
    var q := Queue(s, rq.Home());
    QueueDistinct(s, rq.Home());
    var i := IndexOf(q, rq);
    if Former(s, rq).Some? {
      var p := Former(s, rq).value;
      assert p.Home() == rq.Home();
      IndexOfDistinct(q, i - 1);
      assert q[i - 1] == p;
    }
    if Latter(s, rq).Some? {
      var n := Latter(s, rq).value;
      assert n.Home() == rq.Home();
      IndexOfDistinct(q, i + 1);
      assert q[i + 1] == n;
    }
  }

  // ----------------------------------------------------------------- order

  /** Within one queue the newest request leaves first: right after a
      request is added, its queue's head is that request, so whenever the
      next call picks that queue it hands on the request just added. */
  lemma NewestFirst(s: Sched, rq: Req, now: int, later: int)
    requires Stamped(s)
    requires Decide(Add(s, rq, now), later) == Some(rq.Home())
    ensures Dispatch(Add(s, rq, now), later).sent == Some(rq)
    ensures Queue(Dispatch(Add(s, rq, now), later).state, rq.Home()) == Queue(s, rq.Home())
  {
    var t := rq.Home();
    assert Queue(Add(s, rq, now), t) == [rq] + Queue(s, t);
    assert ([rq] + Queue(s, t))[1..] == Queue(s, t);
  }

  /** Two synchronous reads queued one after the other on a fresh scheduler
      leave in the reverse order. */
  lemma TwoReadsLifo(hz: int, now: int)
    ensures var a := Req(1, Sync, Read);
            var b := Req(2, Sync, Read);
            var s := Add(Add(Init(hz, 0, 1), a, now), b, now);
            && Dispatch(s, now).sent == Some(b)
            && Dispatch(Dispatch(s, now).state, now).sent == Some(a)
  {
    var a := Req(1, Sync, Read);
    var b := Req(2, Sync, Read);
    var s := Add(Add(Init(hz, 0, 1), a, now), b, now);
    assert Queue(s, Slot(Sync, Read)) == [b, a];
    NormalPath(s, now);
    var s1 := Dispatch(s, now).state;
    assert Queue(s1, Slot(Sync, Read)) == [a];
    assert s1.batched == 1 && s1.starved == 1;
    NormalPath(s1, now);
  }
}

=== FILE: scheduler.dfy ===
/** The rohie request-dispatch engine: four deadline-tagged queues, a batching
    counter and a write-starvation counter, and the operations the block layer
    calls (add, dispatch, merge, former/latter lookup, init and exit).

    A queue is a sequence whose index 0 is the list head. Requests are linked
    in at the head, and the head is what is probed and dispatched, so within
    one queue the newest request leaves first. */
module Rohie {
  import opened Types
  import opened Seqs

  /** Expiry interval of each queue (`fifo_expire[sync][dir]`), in clock ticks. */
  datatype Expire = Expire(asyncRead: int, asyncWrite: int, syncRead: int, syncWrite: int) {
    function For(t: Slot): int {
      match t
      case Slot(Async, Read) => asyncRead
      case Slot(Async, Write) => asyncWrite
      case Slot(Sync, Read) => syncRead
      case Slot(Sync, Write) => syncWrite
    }
  }

  /** The scheduler's private data (`struct rohie_data`) together with the
      `fifo_time` stamp of every request it has stamped. */
  datatype Sched = Sched(
    asyncRead: seq<Req>,
    asyncWrite: seq<Req>,
    syncRead: seq<Req>,
    syncWrite: seq<Req>,
    deadline: map<Req, int>,
    batched: u32,
    starved: u32,
    expire: Expire,
    fifoBatch: i32,
    writesStarved: i32)

  /** How many times `r` is linked, over all four queues. */
  function Links(s: Sched, r: Req): nat {
    Occ(s.asyncRead, r) + Occ(s.asyncWrite, r) + Occ(s.syncRead, r) + Occ(s.syncWrite, r)
  }

  /** Number of links on the four queues together. */
  function Size(s: Sched): nat {
    |s.asyncRead| + |s.asyncWrite| + |s.syncRead| + |s.syncWrite|
  }

  /** The queue `fifo_list[t.cls][t.dir]`. */
  function Queue(s: Sched, t: Slot): (q: seq<Req>)
  {
    match t
    case Slot(Async, Read) => s.asyncRead
    case Slot(Async, Write) => s.asyncWrite
    case Slot(Sync, Read) => s.syncRead
    case Slot(Sync, Write) => s.syncWrite
  }

  /** `s` with queue `t` replaced by `q`. */
  function WithQueue(s: Sched, t: Slot, q: seq<Req>): (s': Sched)
    ensures Queue(s', t) == q
    ensures forall u :: u != t ==> Queue(s', u) == Queue(s, u)
    ensures s'.deadline == s.deadline && s'.batched == s.batched && s'.starved == s.starved
    ensures s'.expire == s.expire && s'.fifoBatch == s.fifoBatch && s'.writesStarved == s.writesStarved
  {
    match t
    case Slot(Async, Read) => s.(asyncRead := q)
    case Slot(Async, Write) => s.(asyncWrite := q)
    case Slot(Sync, Read) => s.(syncRead := q)
    case Slot(Sync, Write) => s.(syncWrite := q)
  }

  ghost predicate AllEmpty(s: Sched) {
    forall t: Slot :: Queue(s, t) == []
  }

  /** `r` is linked on some queue. */
  predicate Queued(s: Sched, r: Req) {
    r in s.asyncRead || r in s.asyncWrite || r in s.syncRead || r in s.syncWrite
  }

  /** Every queued request carries a deadline. */
  ghost predicate Stamped(s: Sched) {
    forall t, r :: r in Queue(s, t) ==> r in s.deadline
  }

  lemma QueuedStamped(s: Sched, r: Req)
    requires Stamped(s)
    ensures Queued(s, r) ==> r in s.deadline
  {
    if r in s.asyncRead {
      assert r in Queue(s, Slot(Async, Read));
    } else if r in s.asyncWrite {
      assert r in Queue(s, Slot(Async, Write));
    } else if r in s.syncRead {
      assert r in Queue(s, Slot(Sync, Read));
    } else if r in s.syncWrite {
      assert r in Queue(s, Slot(Sync, Write));
    }
  }

  /** No request is linked twice, on one queue or across two. */
  ghost predicate Partitioned(s: Sched) {
    forall r :: Links(s, r) <= 1
  }

  /** Every request sits on the queue its own tags select. */
  ghost predicate Tagged(s: Sched) {
    forall t, r :: r in Queue(s, t) ==> r.Home() == t
  }

  /** The invariant the host's use of the scheduler maintains. */
  ghost predicate Wf(s: Sched) {
    Stamped(s) && Partitioned(s) && Tagged(s)
  }

  /** `time_after(now, deadline)`: strictly past the deadline. */
  predicate Expired(s: Sched, r: Req, now: int) {
    r in s.deadline && now > s.deadline[r]
  }

  predicate HeadExpired(s: Sched, t: Slot, now: int) {
    Queue(s, t) != [] && Expired(s, Queue(s, t)[0], now)
  }

  // ---------------------------------------------------------------- init / exit

  /** `rohie_init_queue`: four empty lists, `batched` zero, expiry one `hz`
      for synchronous and two for asynchronous queues, `fifo_batch` one.
      `starved` and `writes_starved` are never assigned and the control block
      is not zeroed, so their initial values are parameters. */
  function Init(hz: int, starved: u32, writesStarved: i32): (s: Sched)
    ensures AllEmpty(s) && Size(s) == 0
    ensures s.batched == 0 && s.fifoBatch == 1
    ensures forall d :: s.expire.For(Slot(Sync, d)) == hz && s.expire.For(Slot(Async, d)) == 2 * hz
    ensures s.starved == starved && s.writesStarved == writesStarved
    ensures Wf(s)
  {
    Sched([], [], [], [], map[], 0, starved,
          Expire(asyncRead := 2 * hz, asyncWrite := 2 * hz, syncRead := 1 * hz, syncWrite := 1 * hz),
          1, writesStarved)
  }

  /** The four queues are empty exactly when no request is queued. */
  lemma EmptyQueues(s: Sched)
    ensures AllEmpty(s) <==> s.asyncRead == [] && s.asyncWrite == [] && s.syncRead == [] && s.syncWrite == []
    ensures AllEmpty(s) <==> Size(s) == 0
  {
    if s.asyncRead == [] && s.asyncWrite == [] && s.syncRead == [] && s.syncWrite == [] {
      forall t: Slot
        ensures Queue(s, t) == []
      {
        match t
        case Slot(Async, Read) =>
        case Slot(Async, Write) =>
        case Slot(Sync, Read) =>
        case Slot(Sync, Write) =>
      }
    } else {
      assert !AllEmpty(s) by {
        if s.asyncRead != [] {
          assert Queue(s, Slot(Async, Read)) != [];
        } else if s.asyncWrite != [] {
          assert Queue(s, Slot(Async, Write)) != [];
        } else if s.syncRead != [] {
          assert Queue(s, Slot(Sync, Read)) != [];
        } else {
          assert Queue(s, Slot(Sync, Write)) != [];
        }
      }
    }
  }

  /** `rohie_exit_queue`: true when none of its four `BUG_ON` checks fires. */
  function CanExit(s: Sched): (ok: bool)
    ensures ok <==> AllEmpty(s)
    ensures ok <==> Size(s) == 0
  {
    EmptyQueues(s);
    s.syncRead == [] && s.syncWrite == [] && s.asyncRead == [] && s.asyncWrite == []
  }

  // ------------------------------------------------------------------------ add

  /** `rohie_add_request`: stamp `rq` with `now` plus its queue's expiry and
      link it at the head of that queue. */
  function Add(s: Sched, rq: Req, now: int): (s': Sched)
    ensures s'.deadline == s.deadline[rq := now + s.expire.For(rq.Home())]
    ensures Queue(s', rq.Home()) == [rq] + Queue(s, rq.Home())
    ensures forall t :: t != rq.Home() ==> Queue(s', t) == Queue(s, t)
    ensures s'.batched == s.batched && s'.starved == s.starved
    ensures s'.expire == s.expire && s'.fifoBatch == s.fifoBatch && s'.writesStarved == s.writesStarved
    ensures Stamped(s) ==> Stamped(s')
  {
    var t := rq.Home();
    var s1 := WithQueue(s, t, [rq] + Queue(s, t));
    s1.(deadline := s.deadline[rq := now + s.expire.For(t)])
  }

  // --------------------------------------------------------------------- choose

  /** `rohie_expired_request`: the head of queue `t` if it is strictly past
      its deadline. Only the head is looked at. */
  function ExpiredHead(s: Sched, t: Slot, now: int): (r: Option<Req>)
    requires Stamped(s)
    ensures r.Some? <==> HeadExpired(s, t, now)
    ensures r.Some? ==> r.value == Queue(s, t)[0]
  {
    var q := Queue(s, t);
    if q == [] then None
    else
      assert q[0] in q;
      if now > s.deadline[q[0]] then Some(q[0]) else None
  }

  /** Position of a queue in the expired scan: async write, async read,
      sync write, sync read. */
  function ScanRank(t: Slot): nat {
    match t
    case Slot(Async, Write) => 0
    case Slot(Async, Read) => 1
    case Slot(Sync, Write) => 2
    case Slot(Sync, Read) => 3
  }

  /** `rohie_choose_expired_request`: the first queue, in scan order, whose
      head has expired. */
  function ChooseExpired(s: Sched, now: int): (r: Option<Slot>)
    requires Stamped(s)
    ensures r.Some? ==> HeadExpired(s, r.value, now)
    ensures r.Some? ==> forall u :: ScanRank(u) < ScanRank(r.value) ==> !HeadExpired(s, u, now)
    ensures r.None? <==> forall u :: !HeadExpired(s, u, now)
  {
    if ExpiredHead(s, Slot(Async, Write), now).Some? then Some(Slot(Async, Write))
    else if ExpiredHead(s, Slot(Async, Read), now).Some? then Some(Slot(Async, Read))
    else if ExpiredHead(s, Slot(Sync, Write), now).Some? then Some(Slot(Sync, Write))
    else if ExpiredHead(s, Slot(Sync, Read), now).Some? then Some(Slot(Sync, Read))
    else None
  }

  /** Position of a queue in the normal choice for preferred direction `d`:
      synchronous before asynchronous, `d` before the opposite direction. */
  function NormalRank(d: Dir, t: Slot): nat {
    (if t.cls == Sync then 0 else 2) + (if t.dir == d then 0 else 1)
  }

  /** `rohie_choose_request`: the first non-empty queue among sync `d`,
      sync `!d`, async `d`, async `!d`. */
  function ChooseNormal(s: Sched, d: Dir): (r: Option<Slot>)
    ensures r.Some? ==> Queue(s, r.value) != []
    ensures r.Some? ==> forall u :: NormalRank(d, u) < NormalRank(d, r.value) ==> Queue(s, u) == []
    ensures r.None? <==> AllEmpty(s)
  {
    if Queue(s, Slot(Sync, d)) != [] then Some(Slot(Sync, d))
    else if Queue(s, Slot(Sync, Flip(d))) != [] then Some(Slot(Sync, Flip(d)))
    else if Queue(s, Slot(Async, d)) != [] then Some(Slot(Async, d))
    else if Queue(s, Slot(Async, Flip(d))) != [] then Some(Slot(Async, Flip(d)))
    else None
  }

  /** The direction the normal choice prefers: WRITE once `starved` exceeds
      `writes_starved` (compared as unsigned), READ otherwise. */
  function PreferredDir(s: Sched): (d: Dir)
    ensures d == Write <==> s.starved > s.writesStarved % U32
    ensures s.writesStarved == -1 ==> d == Read
    ensures s.writesStarved < 0 ==> (d == Write <==> s.starved > U32 + s.writesStarved)
  {
    if s.starved > ToUnsigned(s.writesStarved) then Write else Read
  }

  /** The expired scan is due: `batched > fifo_batch`, compared as unsigned. */
  predicate BatchDue(s: Sched) {
    s.batched > ToUnsigned(s.fifoBatch)
  }

  /** The two-phase decision of `rohie_dispatch_requests`: the expired scan
      when a batch is due and it finds something, the normal choice otherwise. */
  function Decide(s: Sched, now: int): (r: Option<Slot>)
    requires Stamped(s)
    ensures r.None? <==> AllEmpty(s)
    ensures r.Some? ==> Queue(s, r.value) != []
  {
    var expired := if BatchDue(s) then ChooseExpired(s, now) else None;
    if expired.Some? then expired else ChooseNormal(s, PreferredDir(s))
  }

  // ------------------------------------------------------------------- dispatch

  /** `rohie_dispatch_request`: unlink the head of queue `t`, count it in the
      batch, and update the starvation counter by its direction. */
  function DispatchHead(s: Sched, t: Slot): (s': Sched)
    requires Queue(s, t) != []
    ensures Queue(s', t) == Queue(s, t)[1..]
    ensures forall u :: u != t ==> Queue(s', u) == Queue(s, u)
    ensures forall u, r :: r in Queue(s', u) ==> r in Queue(s, u)
    ensures s'.deadline == s.deadline
    ensures s'.batched == Inc(s.batched)
    ensures s'.starved == if Queue(s, t)[0].dir == Write then 0 else Inc(s.starved)
    ensures s'.expire == s.expire && s'.fifoBatch == s.fifoBatch && s'.writesStarved == s.writesStarved
  {
    var q := Queue(s, t);
    assert q == [q[0]] + q[1..];
    var rq := q[0];
    WithQueue(s, t, q[1..]).(
      batched := Inc(s.batched),
      starved := if rq.dir == Write then 0 else Inc(s.starved))
  }

  /** Result of one dispatch call: the new state and the request handed to
      the block layer, if any (the C function returns 1 exactly when there is one). */
  datatype Step = Step(state: Sched, sent: Option<Req>)

  /** `rohie_dispatch_requests`. */
  function Dispatch(s: Sched, now: int): (o: Step)
    requires Stamped(s)
    ensures Stamped(o.state)
    ensures o.sent.None? <==> AllEmpty(s)
    ensures o.sent.None? ==> forall t :: Queue(o.state, t) == Queue(s, t)
    ensures o.sent.Some? ==>
              var t := Decide(s, now).value;
              && o.sent.value == Queue(s, t)[0]
              && Queue(o.state, t) == Queue(s, t)[1..]
              && forall u :: u != t ==> Queue(o.state, u) == Queue(s, u)
    ensures o.sent.None? ==> o.state.batched == (if BatchDue(s) then 0 else s.batched)
    ensures o.sent.Some? ==> o.state.batched == (if BatchDue(s) then 1 else Inc(s.batched))
    ensures o.sent.None? ==> o.state.starved == s.starved
    ensures o.sent.Some? && o.sent.value.dir == Write ==> o.state.starved == 0
    ensures o.sent.Some? && o.sent.value.dir == Read ==> o.state.starved == Inc(s.starved)
    ensures o.state.deadline == s.deadline && o.state.expire == s.expire
    ensures o.state.fifoBatch == s.fifoBatch && o.state.writesStarved == s.writesStarved
  {
    var s1 := if BatchDue(s) then s.(batched := 0) else s;
    assert forall u :: Queue(s1, u) == Queue(s, u);
    match Decide(s, now)
    case None => Step(s1, None)
    case Some(t) =>
      Step(DispatchHead(s1, t), Some(Queue(s, t)[0]))
  }

  // ---------------------------------------------------------------------- merge

  /** Both requests are linked and `next`'s deadline is strictly earlier
      (`time_before(next->fifo_time, rq->fifo_time)`). */
  predicate MergeMoves(s: Sched, rq: Req, next: Req)
    requires Stamped(s)
  {
    && Queued(s, rq)
    && Queued(s, next)
    && (QueuedStamped(s, rq); QueuedStamped(s, next); s.deadline[next] < s.deadline[rq])
  }

  /** One queue after a merge: either `rq` is unlinked and put where `next`
      stood, or only `next` is unlinked. */
  function MergeQueue(q: seq<Req>, rq: Req, next: Req, moves: bool): seq<Req> {
    if moves then Replace(Without(q, rq), next, rq) else Without(q, next)
  }

  function Min(a: int, b: int): int {
    if a <= b then a else b
  }

  /** Every queue after a merge, deadlines untouched. */
  function MergeQueues(s: Sched, rq: Req, next: Req, moves: bool): (s': Sched)
    ensures forall t :: Queue(s', t) == MergeQueue(Queue(s, t), rq, next, moves)
    ensures !Queued(s', next)
    ensures s'.deadline == s.deadline && s'.batched == s.batched && s'.starved == s.starved
    ensures s'.expire == s.expire && s'.fifoBatch == s.fifoBatch && s'.writesStarved == s.writesStarved
  {
    s.(
      asyncRead := MergeQueue(s.asyncRead, rq, next, moves),
      asyncWrite := MergeQueue(s.asyncWrite, rq, next, moves),
      syncRead := MergeQueue(s.syncRead, rq, next, moves),
      syncWrite := MergeQueue(s.syncWrite, rq, next, moves))
  }

  /** The deadlines after a merge: `rq` inherits `next`'s deadline only when
      the merge moves it. */
  function MergedDeadline(s: Sched, rq: Req, next: Req): (d: map<Req, int>)
    requires Stamped(s)
    ensures Queued(s, rq) && Queued(s, next) ==>
              && rq in s.deadline && next in s.deadline
              && d == s.deadline[rq := Min(s.deadline[rq], s.deadline[next])]
    ensures !(Queued(s, rq) && Queued(s, next)) ==> d == s.deadline
  {
    QueuedStamped(s, rq);
    QueuedStamped(s, next);
    if MergeMoves(s, rq, next) then s.deadline[rq := s.deadline[next]]
    else
      assert rq in s.deadline ==> s.deadline[rq := s.deadline[rq]] == s.deadline;
      s.deadline
  }

  /** `rohie_merged_requests`: `next` has been folded into `rq`. When both
      are linked and `next` expires strictly earlier, `rq` takes `next`'s
      place and deadline; in every case `next` is unlinked. */
  function Merge(s: Sched, rq: Req, next: Req): (s': Sched)
    requires Stamped(s)
    ensures !Queued(s', next)
    ensures s'.deadline == MergedDeadline(s, rq, next)
    ensures forall t :: Queue(s', t) == MergeQueue(Queue(s, t), rq, next, MergeMoves(s, rq, next))
    ensures s'.batched == s.batched && s'.starved == s.starved
    ensures s'.expire == s.expire && s'.fifoBatch == s.fifoBatch && s'.writesStarved == s.writesStarved
  {
    MergeQueues(s, rq, next, MergeMoves(s, rq, next)).(deadline := MergedDeadline(s, rq, next))
  }

  // ----------------------------------------------------------- former / latter

  /** A queue of a partitioned state has no duplicates. */
  lemma QueueDistinct(s: Sched, t: Slot)
    requires Partitioned(s)
    ensures Distinct(Queue(s, t))
  {
    var q := Queue(s, t);
    forall x
      ensures Occ(q, x) <= 1
    {
      assert Links(s, x) <= 1;
    }
    AtMostOnceIsDistinct(q);
  }

  /** `rohie_former_request`: the request just before `rq` on its own queue,
      none when `rq` is the head. */
  function Former(s: Sched, rq: Req): (r: Option<Req>)
    requires Wf(s)
    requires rq in Queue(s, rq.Home())
    ensures r.None? <==> Queue(s, rq.Home())[0] == rq
    ensures r.Some? ==> var q := Queue(s, rq.Home());
              r.value in q && IndexOf(q, r.value) + 1 == IndexOf(q, rq)
  {
    var q := Queue(s, rq.Home());
    var i := IndexOf(q, rq);
    if i == 0 then None
    else
      QueueDistinct(s, rq.Home());
      IndexOfDistinct(q, i - 1);
      Some(q[i - 1])
  }

  /** `rohie_latter_request`: the request just after `rq` on its own queue,
      none when `rq` is the tail. */
  function Latter(s: Sched, rq: Req): (r: Option<Req>)
    requires Wf(s)
    requires rq in Queue(s, rq.Home())
    ensures r.None? <==> Queue(s, rq.Home())[|Queue(s, rq.Home())| - 1] == rq
    ensures r.Some? ==> var q := Queue(s, rq.Home());
              r.value in q && IndexOf(q, r.value) == IndexOf(q, rq) + 1
  {
    var q := Queue(s, rq.Home());
    QueueDistinct(s, rq.Home());
    var i := IndexOf(q, rq);
    IndexOfDistinct(q, |q| - 1);
    if i == |q| - 1 then None
    else
      IndexOfDistinct(q, i + 1);
      Some(q[i + 1])
  }
}

=== FILE: seqs.dfy ===
/** Sequence helpers: removing every occurrence of an element, substituting
    one element for another, and locating an element. A doubly linked list
    whose nodes are all distinct is modelled as a duplicate-free sequence. */
module Seqs {

  predicate Distinct<T(==)>(q: seq<T>) {
    forall i, j :: 0 <= i < j < |q| ==> q[i] != q[j]
  }

  /** Number of occurrences of `x` in `q`. */
  function Occ<T(==)>(q: seq<T>, x: T): (n: nat)
    ensures n > 0 <==> x in q
    ensures n <= |q|
  {
    if q == [] then 0
    else
      assert q == [q[0]] + q[1..];
      (if q[0] == x then 1 else 0) + Occ(q[1..], x)
  }

  /** Occurrences in a sequence with one element put in front. */
  lemma OccCons<T>(x: T, q: seq<T>, y: T)
    ensures Occ([x] + q, y) == (if x == y then 1 else 0) + Occ(q, y)
  {
    assert ([x] + q)[1..] == q;
  }

  /** `q` with every occurrence of `x` unlinked; the others keep their order. */
  function Without<T(==)>(q: seq<T>, x: T): (r: seq<T>)
    ensures x !in r
    ensures |r| <= |q|
  {
    if q == [] then []
    else if q[0] == x then Without(q[1..], x)
    else [q[0]] + Without(q[1..], x)
  }

  /** Unlinking `x` removes every occurrence of `x` and no other. */
  lemma {:induction false} WithoutOcc<T>(q: seq<T>, x: T, y: T)
    ensures Occ(Without(q, x), y) == if y == x then 0 else Occ(q, y)
  {
    if q != [] {
      WithoutOcc(q[1..], x, y);
      if q[0] != x {
        OccCons(q[0], Without(q[1..], x), y);
      }
    }
  }

  /** Unlinking an absent element changes nothing. */
  lemma {:induction false} WithoutAbsent<T>(q: seq<T>, x: T)
    requires x !in q
    ensures Without(q, x) == q
  {
    if q != [] {
      assert q == [q[0]] + q[1..];
      WithoutAbsent(q[1..], x);
    }
  }

  /** `q` with every occurrence of `x` replaced, in place, by `y`. */
  function Replace<T(==)>(q: seq<T>, x: T, y: T): (r: seq<T>)
    ensures |r| == |q|
    ensures x != y ==> x !in r
    ensures x !in q ==> r == q
  {
    if q == [] then []
    else [if q[0] == x then y else q[0]] + Replace(q[1..], x, y)
  }

  /** Replacing `x` by `y` moves the occurrences of `x` onto `y` and leaves
      every other element's count alone. */
  lemma {:induction false} ReplaceOcc<T>(q: seq<T>, x: T, y: T, z: T)
    requires x != y
    ensures Occ(Replace(q, x, y), z) ==
              if z == x then 0
              else if z == y then Occ(q, y) + Occ(q, x)
              else Occ(q, z)
  {
    if q != [] {
      ReplaceOcc(q[1..], x, y, z);
      OccCons(if q[0] == x then y else q[0], Replace(q[1..], x, y), z);
    }
  }

  /** Position of the first occurrence of `x` in `q`. */
  function IndexOf<T(==)>(q: seq<T>, x: T): (i: nat)
    requires x in q
    ensures i < |q| && q[i] == x
    ensures x !in q[..i]
  {
    if q[0] == x then 0
    else
      assert q == [q[0]] + q[1..];
      1 + IndexOf(q[1..], x)
  }

  /** In a duplicate-free sequence, the element at `i` is found at `i`. */
  lemma IndexOfDistinct<T>(q: seq<T>, i: int)
    requires Distinct(q)
    requires 0 <= i < |q|
    ensures IndexOf(q, q[i]) == i
  {
  }

  /** The first occurrence is where `x` stands with no earlier `x`. */
  lemma IndexOfAt<T>(q: seq<T>, i: int, x: T)
    requires 0 <= i < |q| && q[i] == x && x !in q[..i]
    ensures IndexOf(q, x) == i
  {
  }

  /** A sequence in which nothing occurs twice has no duplicates. */
  lemma {:induction false} AtMostOnceIsDistinct<T>(q: seq<T>)
    requires forall x :: Occ(q, x) <= 1
    ensures Distinct(q)
  {
    if q != [] {
      forall x
        ensures Occ(q[1..], x) <= 1
      {
        assert Occ(q, x) == (if q[0] == x then 1 else 0) + Occ(q[1..], x);
      }
      AtMostOnceIsDistinct(q[1..]);
      assert q[0] !in q[1..] by {
        assert Occ(q, q[0]) == 1 + Occ(q[1..], q[0]);
      }
      forall i, j | 0 <= i < j < |q|
        ensures q[i] != q[j]
      {
        if i == 0 {
          assert q[j] == q[1..][j - 1];
        } else {
          assert q[i] == q[1..][i - 1] && q[j] == q[1..][j - 1];
        }
      }
    }
  }

  /** Unlinking two elements does not depend on the order it is done in. */
  lemma {:induction false} WithoutCommutes<T(!new)>(q: seq<T>, a: T, b: T)
    ensures Without(Without(q, a), b) == Without(Without(q, b), a)
  {
    if q != [] {
      WithoutCommutes(q[1..], a, b);
    }
  }

  /** Putting `y` in place of `x` and then unlinking `y` is the same as
      unlinking `x`, when `y` was absent to begin with. */
  lemma {:induction false} WithoutReplace<T(!new)>(q: seq<T>, x: T, y: T)
    requires x != y
    requires y !in q
    ensures Without(Replace(q, x, y), y) == Without(q, x)
  {
    if q != [] {
      assert q == [q[0]] + q[1..];
      WithoutReplace(q[1..], x, y);
    }
  }

  /** When `y` was absent, it ends up exactly where the first `x` stood. */
  lemma {:induction false} IndexOfReplace<T(!new)>(q: seq<T>, x: T, y: T)
    requires x in q
    requires y !in q
    ensures y in Replace(q, x, y)
    ensures IndexOf(Replace(q, x, y), y) == IndexOf(q, x)
  {
    assert q == [q[0]] + q[1..];
    if q[0] != x {
      IndexOfReplace(q[1..], x, y);
    }
  }
}

=== FILE: types.dfy ===
/** Basic vocabulary of the scheduler: optional values, the C integer widths
    the scheduler's counters use, and the tags every request carries. */
module Types {

  /** A request or queue that may be absent: `None` is a NULL `struct request *`. */
  datatype Option<+T> = None | Some(value: T)

  /** Number of values of a 32-bit C integer. */
  const U32: int := 0x1_0000_0000

  /** C `unsigned int`. */
  type u32 = x: int | 0 <= x < 0x1_0000_0000

  /** C `int`. */
  type i32 = x: int | -0x8000_0000 <= x < 0x8000_0000

  /** The value an `int` takes when C compares it with an `unsigned int`
      (the usual arithmetic conversions turn the `int` into `unsigned int`). */
  function ToUnsigned(x: i32): (r: u32)
    ensures r % U32 == x % U32
    ensures 0 <= x ==> r == x
    ensures x < 0 ==> r >= 0x8000_0000
  {
    if x < 0 then x + U32 else x
  }

  /** `x++` on an `unsigned int`: wraps to zero past the largest value. */
  function Inc(x: u32): (r: u32)
    ensures r == (x + 1) % U32
    ensures x < U32 - 1 ==> r == x + 1
  {
    if x == U32 - 1 then 0 else x + 1
  }

  /** Whether the issuer waits for the request (`rq_is_sync`). */
  datatype Class = Async | Sync

  /** Data direction of a request (`rq_data_dir`). */
  datatype Dir = Read | Write

  /** The other direction (`!data_dir`). */
  function Flip(d: Dir): (e: Dir)
    ensures e != d
  {
    match d
    case Read => Write
    case Write => Read
  }

  /** One of the four queues, indexed by class and direction. */
  datatype Slot = Slot(cls: Class, dir: Dir)

  /** A request handle together with the class and direction it was issued with. */
  datatype Req = Req(id: nat, cls: Class, dir: Dir) {
    /** The queue this request's own tags select. */
    function Home(): Slot {
      Slot(cls, dir)
    }
  }
}
